=== FILE: README.md ===
# Mentor data, session store and voice-call signalling: a Dafny model

This project models two small pieces of the anonymous-voice web client and
proves properties about them.

1. **`AuthService` (auth.service.ts).** `getNestedValue` splits a dotted path
   on `.` and walks a nested JavaScript value. It returns `""` as soon as a
   step fails, or when the walk ends on something that is not a string,
   number or boolean. `validateMentorData` requires five fixed paths to hold a
   value other than `""`. The session helpers `getStoredUser`, `getStoredToken`,
   `isAuthenticated` and `logout` read and clear `localStorage`.
   - Values are the recursive datatype `JsonValue.Json`: object, array,
     string, number, boolean, `null`, plus `undefined`, which a partial form
     object may hold.
   - The browser is a record with a `hasWindow` flag and a
     `map<string, string>` for `localStorage`.
   - `JSON.parse` is a parameter, a function that returns `None` where
     `JSON.parse` throws.
2. **`VoiceCall` (VoiceCall.tsx).** React, the socket and WebRTC are reduced
   to an abstract session record: props, React state, whether the set-up's
   peer connection exists, whether its remote description is set, the
   registered socket handlers and whether the component is mounted. The
   component is a pure transition function over this record. Every call it
   makes on the socket, the peer connection, `CallService` and its host is
   appended to a trace.
   - The set-up awaits twice: once for `CallService.initializeCall` and,
     for a caller, once more for `createOffer`. Each wait ends in an event
     of its own, so the cleanup can run between them.
   - Events cover the peer arriving or failing, the offer settling, incoming `call-offer`,
     `call-answer`, `ice-candidate` and `call:end`, the end-call button, and
     the effect cleanup on unmount.
   - Each opaque asynchronous call reports its outcome (resolved or rejected)
     as a field of the event that delivers it.

Modules: `Wrappers` (Option), `JsonValue`, `DottedPath` (split/join on `.`),
`MentorValidation`, `SessionStore`, `VoiceCall`.

How `part in result` is read: for an object it holds for its own keys
(inherited keys are left out, see below). For an array it holds for an
in-range canonical index or `length`, and `length` reads back as a number.

Behaviour kept exactly as written:
- `0` and `false` count as present values. The `!== undefined` test in
  `validateMentorData` can never fail.
- An empty `user` entry is falsy, so it yields `null` without being parsed.
- When a caller's `createOffer` rejects, "Connected" has already been set.
  The error message then appears next to it, and no handler is registered.
- The `call-answer` and `ice-candidate` handlers do not check the room id.
- The cleanup does not remove the `call:end` handler.
- Set-up completes even after the cleanup has run. An effect cleanup
  normally undoes what the effect subscribed; this one leaves `call:end`
  registered, and after a late set-up all four handlers.
  - If the peer arrives after the cleanup, the component itself never
    calls `close()` on that peer; only the opaque `CallService.endCall`
    might close it (`VoiceCall.LateSetupOutlivesCleanup`).
  - If the cleanup runs while a caller awaits its offer, the peer is closed,
    and the four handlers are then registered anyway
    (`VoiceCall.HandlersRegisteredOnClosedPeer`).
  - `VoiceCall.CallEndHandlerPersists` shows that `call:end` is never
    removed.
- React drops state updates after unmount, so a late set-up changes neither
  `isConnected` nor `error`.

## Model

| member | source | states |
|---|---|---|
| DottedPath.Split | anonymous-voice/src/services/auth.service.ts:287 | `split(".")` always yields at least one segment and at most one more than the path has characters |
| DottedPath.Join | anonymous-voice/src/services/auth.service.ts:287 | the partner of the split: a join starts with its first segment, followed by a dot when more segments follow; one segment joins to itself |
| DottedPath.SplitProperties | anonymous-voice/src/services/auth.service.ts:287 | `path.split(".")` yields one more segment than the path has dots; no segment contains a dot; joining the segments with `.` gives back the path |
| DottedPath.SplitCount | anonymous-voice/src/services/auth.service.ts:287 | a split yields exactly one more segment than the path has dots |
| DottedPath.SplitSegmentsDotFree | anonymous-voice/src/services/auth.service.ts:287 | no segment of a split contains a dot |
| DottedPath.JoinSplit | anonymous-voice/src/services/auth.service.ts:287 | joining the segments of a split with `.` gives back the path |
| DottedPath.SplitJoin | anonymous-voice/src/services/auth.service.ts:287 | splitting the `.`-join of a non-empty list of dot-free segments returns exactly that list |
| DottedPath.SplitDotFree | anonymous-voice/src/services/auth.service.ts:287 | a path without dots splits into itself alone |
| DottedPath.SplitPrefix | anonymous-voice/src/services/auth.service.ts:287 | a dot-free head followed by `.` splits off as the first segment, and the remainder splits on its own |
| MentorValidation.IsCanonicalIndex | anonymous-voice/src/services/auth.service.ts:291 | an array-index property name is never `length` and contains no dot, so it can be a path segment |
| MentorValidation.DigitsValue | anonymous-voice/src/services/auth.service.ts:291 | a digit string with a non-zero first digit denotes a positive index |
| MentorValidation.IndexStringRoundTrip | anonymous-voice/src/services/auth.service.ts:291 | the decimal name of any index is a canonical index name whose value is that index |
| MentorValidation.CanonicalIndexRoundTrip | anonymous-voice/src/services/auth.service.ts:291 | every canonical index name is the decimal name of its own value |
| MentorValidation.HasKey | anonymous-voice/src/services/auth.service.ts:291 | only objects and arrays have keys, and every array has `length` |
| MentorValidation.Get | anonymous-voice/src/services/auth.service.ts:292 | reading a key yields one of the object's values, one of the array's elements, or the array's length |
| MentorValidation.ArrayHasEveryIndex | anonymous-voice/src/services/auth.service.ts:291-292 | every in-range index of an array is found by `in`, and reading it yields that element |
| MentorValidation.Descend | anonymous-voice/src/services/auth.service.ts:291-295 | one step of the walk succeeds exactly when the current value is a non-null object or array that has the key; on an object with the key it yields that key's value |
| MentorValidation.Resolve | anonymous-voice/src/services/auth.service.ts:290-296 | an empty path ends where it started; a walk over a non-empty path succeeds only if its first step does: the value is a non-null object or array holding the first segment |
| MentorValidation.ResolveAppend | anonymous-voice/src/services/auth.service.ts:290-296 | walking `p + q` equals walking `p` and then walking `q` from the value reached; a miss in `p` stays a miss |
| MentorValidation.GetNestedValue | anonymous-voice/src/services/auth.service.ts:283-303 | the result is always a string, number or boolean; any result other than `""` is exactly the value at the end of the path |
| MentorValidation.EarlyMissYieldsEmpty | anonymous-voice/src/services/auth.service.ts:290-295 | if at some segment the value reached so far is not a non-null object, or lacks that segment, the result is `""`, whatever the later segments are |
| MentorValidation.LeafKind | anonymous-voice/src/services/auth.service.ts:298-302 | a walk ending on an object, array, null or undefined yields `""`; a walk ending on a string, number or boolean yields that leaf unchanged |
| MentorValidation.ResolveSetPath | anonymous-voice/src/services/auth.service.ts:287-296 | the walk along a path finds whatever was stored at that path, whatever the value held before |
| MentorValidation.GetNestedValueAfterSet | anonymous-voice/src/services/auth.service.ts:283-303 | round trip: a string, number or boolean stored at a dotted path is read back unchanged |
| MentorValidation.UndefinedCheckIsDead | anonymous-voice/src/services/auth.service.ts:315-318 | the looked-up value is never `undefined`, so a field passes exactly when its value is not `""` |
| MentorValidation.FieldFilled | anonymous-voice/src/services/auth.service.ts:316-317 | a field passes the `every` callback exactly when its looked-up value is not `""`; the `undefined` half of the test never decides |
| MentorValidation.AllFilled | anonymous-voice/src/services/auth.service.ts:315-318 | `every` over a list of paths is true exactly when every path's value differs from `""` |
| MentorValidation.ValidateMentorData | anonymous-voice/src/services/auth.service.ts:306-319 | true exactly when each of the five required paths has a value other than `""` |
| MentorValidation.PlainKeyDescend | anonymous-voice/src/services/auth.service.ts:291-292 | a key that is not `length` and does not start with a digit is found only in objects, never in arrays |
| MentorValidation.OneSegmentField | anonymous-voice/src/services/auth.service.ts:287-302 | for a dot-free key that is not `length` and does not start with a digit, the one-segment path holds a present value exactly when the data is an object in which that key holds a present value |
| MentorValidation.TwoSegmentField | anonymous-voice/src/services/auth.service.ts:287-302 | for dot-free keys `a` and `b` that are not `length` and do not start with a digit, `a.b` holds a present value exactly when the data is an object whose key `a` holds an object in which `b` holds a present value |
| MentorValidation.MentorField | anonymous-voice/src/services/auth.service.ts:287-302 | for a dot-free key that is not `length` and does not start with a digit, `mentor.<key>` holds a present value exactly when `mentor` is an object in which the key holds a present value |
| MentorValidation.UserNameField | anonymous-voice/src/services/auth.service.ts:308 | the `userName` path holds a present value exactly when the data is an object whose `userName` holds a present value |
| MentorValidation.MentorNameField | anonymous-voice/src/services/auth.service.ts:309 | `mentor.name` holds a present value exactly when `mentor` is an object holding a present `name` |
| MentorValidation.MentorEmailField | anonymous-voice/src/services/auth.service.ts:310 | the same for `mentor.email` |
| MentorValidation.MentorGenderField | anonymous-voice/src/services/auth.service.ts:311 | the same for `mentor.gender` |
| MentorValidation.MentorSpecializationField | anonymous-voice/src/services/auth.service.ts:312 | the same for `mentor.specialization` |
| MentorValidation.ValidateSound | anonymous-voice/src/services/auth.service.ts:306-319 | data the validator accepts is an object with a present `userName` and an object `mentor` with present `name`, `email`, `gender` and `specialization` |
| MentorValidation.ValidateComplete | anonymous-voice/src/services/auth.service.ts:306-319 | data of that shape is accepted |
| MentorValidation.ValidateMentorDataSpec | anonymous-voice/src/services/auth.service.ts:306-319 | the validator accepts exactly the data of that shape, where present means a string, number or boolean other than `""` |
| MentorValidation.ClearingAFieldRejects | anonymous-voice/src/services/auth.service.ts:315-318 | setting any one required field to `""` makes the data invalid, whatever the other fields hold |
| MentorValidation.FilledRegistrationAccepted | anonymous-voice/src/services/auth.service.ts:306-318 | `0` and `false` are present values and `""` is not; any registration built from five present values passes |
| SessionStore.GetItem | anonymous-voice/src/services/auth.service.ts:185 | `getItem` returns the stored string when the key is present and `null` otherwise |
| SessionStore.RemoveItem | anonymous-voice/src/services/auth.service.ts:195-198 | `removeItem` drops exactly the given key and keeps every other entry unchanged |
| SessionStore.GetStoredUser | anonymous-voice/src/services/auth.service.ts:181-191 | the result is `null` without a window, without a `user` entry, or with an empty entry; otherwise it is the parsed entry, or `null` when parsing throws |
| SessionStore.GetStoredToken | anonymous-voice/src/services/auth.service.ts:212-217 | the result is the `authToken` entry exactly when a window exists and the entry is stored; otherwise `null` |
| SessionStore.Logout | anonymous-voice/src/services/auth.service.ts:193-200 | with a window it removes exactly `authToken`, `needsPasswordChange`, `user` and `isAuthenticated` and keeps every other entry unchanged; without a window the store is untouched |
| JsonValue.Truthy | anonymous-voice/src/services/auth.service.ts:209 | `!!v`: every object and array is truthy, even an empty one; `null`, `undefined`, `""`, `0` and `false` are falsy; a truthy value is an object, an array, or a string, number or boolean other than `""` |
| SessionStore.IsAuthenticated | anonymous-voice/src/services/auth.service.ts:208-210 | nobody is signed in without a window, without a non-empty `user` entry, or when that entry does not parse |
| SessionStore.IsAuthenticatedSpec | anonymous-voice/src/services/auth.service.ts:208-210 | signed in exactly when a window exists, the `user` entry is non-empty, and it parses to a truthy value |
| SessionStore.ParseFailureIsNull | anonymous-voice/src/services/auth.service.ts:184-190 | a `user` entry that does not parse gives `null` and "not signed in"; the failure does not escape |
| SessionStore.LogoutIdempotent | anonymous-voice/src/services/auth.service.ts:193-200 | logging out twice gives the same browser state as logging out once |
| SessionStore.LogoutKeepsOtherKeys | anonymous-voice/src/services/auth.service.ts:193-200 | for every key outside the four session keys, with a window or without, `getItem` reads the same before and after logout, present or absent |
| SessionStore.LogoutSignsOut | anonymous-voice/src/services/auth.service.ts:181-217 | after logout with a window, no user is stored, nobody is signed in whatever the parser, and no token is stored; without a window the token reading is unchanged |
| VoiceCall.Mount | src/components/chat/VoiceCall.tsx:20-30 | a fresh component is not connected, shows no error, has no handlers, has asked the call service for a peer, and satisfies the invariant |
| VoiceCall.LocalEndCalls | src/components/chat/VoiceCall.tsx:98-102 | the end-call button emits `call:end` for this room, then makes exactly the calls of a remote `call:end`, and never closes a peer itself |
| VoiceCall.CleanupCalls | src/components/chat/VoiceCall.tsx:89-95 | the cleanup calls `close()` exactly when a peer exists, never unsubscribes `call:end`, and calls `CallService.endCall` last |
| VoiceCall.Calls | src/components/chat/VoiceCall.tsx:25-102 | an unmounted component never calls `close()` on its peer itself; with a remote description set, no answer is applied; an offer is created only when a caller's peer arrives, for its own room, as the first call of that step |
| VoiceCall.Apply | src/components/chat/VoiceCall.tsx:25-95 | room id and role are fixed at mount (an assumption, see "Left out") and carried unchanged; a peer once obtained and a remote description once set stay; after the cleanup the component stays unmounted, "Connected" does not change, and handlers are only ever added |
| VoiceCall.Step | src/components/chat/VoiceCall.tsx:25-102 | every event carries the room id and role fixed at mount unchanged, only appends to the trace, and never clears a set remote description |
| VoiceCall.Run | src/components/chat/VoiceCall.tsx:25-102 | a sequence of events carries the room id and role fixed at mount unchanged and only appends to the trace |
| VoiceCall.CallsOffers | src/components/chat/VoiceCall.tsx:30-35 | only the arrival of a caller's peer creates an offer, for its own room, as the first call it makes |
| VoiceCall.StepValid | src/components/chat/VoiceCall.tsx:25-102 | every event preserves the invariant. "Connected" implies a peer, and a mounted component holding a peer shows "Connected"; only a caller waits for its offer; handlers exist only after a successful set-up; the only error is the set-up failure; at most one offer exists, made by a caller holding a peer |
| VoiceCall.RunValid | src/components/chat/VoiceCall.tsx:25-102 | every sequence of events preserves the invariant |
| VoiceCall.ReachableSessionsSound | src/components/chat/VoiceCall.tsx:28-35 | in every run from mount, "Connected" implies the set-up obtained a peer; at most one offer is created, only by a caller holding a peer, and for its own room |
| VoiceCall.InitRejectedOutcome | src/components/chat/VoiceCall.tsx:81-84 | a rejected set-up shows "Failed to initialize call", is not connected, holds no peer, registers no handler, and only logs |
| VoiceCall.PeerReadyOutcome | src/components/chat/VoiceCall.tsx:30-80 | once the peer arrives "Connected" shows. A callee registers all four handlers at once; a caller creates its offer for this room and waits, with no handler registered |
| VoiceCall.OfferSettledOutcome | src/components/chat/VoiceCall.tsx:33-84 | a settled offer registers all four handlers; a failed one logs, shows "Failed to initialize call" next to "Connected", and registers no handler |
| VoiceCall.OfferFiltering | src/components/chat/VoiceCall.tsx:46-55 | an offer for another room, or one reaching the caller, changes nothing. A matching offer is handed to the call service for this room, and only the remote description may change |
| VoiceCall.AnswerGuard | src/components/chat/VoiceCall.tsx:58-64 | an answer is a no-op once a remote description is set; the room it names makes no difference |
| VoiceCall.NoAnswerStep | src/components/chat/VoiceCall.tsx:58-64 | with a remote description set, no event calls `setRemoteDescription` |
| VoiceCall.AnswerAppliedAtMostOnce | src/components/chat/VoiceCall.tsx:58-64 | once a remote description is set it stays set, and no later sequence of events applies another answer |
| VoiceCall.CandidateFailureSwallowed | src/components/chat/VoiceCall.tsx:67-75 | a failing candidate changes nothing but the trace; its calls are those of an accepted candidate plus one log line |
| VoiceCall.EndPathsShareTeardown | src/components/chat/VoiceCall.tsx:77-102 | the end button emits `call:end` with the room id, then makes exactly the calls of a remote `call:end`: `onEndCall`, then `CallService.endCall`. A remote `call:end` emits nothing. Neither changes any state |
| VoiceCall.CleanupTeardown | src/components/chat/VoiceCall.tsx:89-95 | the cleanup closes the peer exactly when one exists. It removes the offer, answer and candidate handlers but keeps `call:end`, ends with `CallService.endCall`, and runs once |
| VoiceCall.CallEndHandlerPersists | src/components/chat/VoiceCall.tsx:77-95 | once registered, the `call:end` handler stays registered through any sequence of events, unmount included |
| VoiceCall.RunAppend | src/components/chat/VoiceCall.tsx:25-102 | running two sequences of events one after the other equals running their concatenation |
| VoiceCall.UnmountedStaysOpen | src/components/chat/VoiceCall.tsx:89-95 | after the cleanup, under no sequence of events does the component itself call `close()` on the peer (only the opaque `CallService.endCall` might close it); "Connected" does not change, and no handler and no peer goes away |
| VoiceCall.LateSetupOutlivesCleanup | src/components/chat/VoiceCall.tsx:28-95 | if the cleanup runs before the peer arrives, the late set-up registers all four handlers on an unmounted component, and whatever events follow, the four handlers stay registered, "Connected" never shows, and the component itself never calls `close()` on that peer; only the opaque `CallService.endCall` might close it |
| VoiceCall.HandlersRegisteredOnClosedPeer | src/components/chat/VoiceCall.tsx:33-91 | if the cleanup runs while a caller awaits its offer, the cleanup closes the peer, and the settled offer then registers all four handlers on that closed peer |

## Left out

- Firebase and Google sign-in (`googleSignIn`, `handleGoogleMentorSignUp`, `checkExistingGoogleUser`): foreign SDK and network calls.
- `createMentee`, `createMentor`, `login` and `setAuthData`: HTTP I/O, plus writes that depend on a server response and on `jwtDecode`, a foreign library.
- The `useMentorAuth` hook, the sign-up and registration pages, the statistics section and the call button: rendering and routing around the service.
- `getNestedValue` on inherited properties: the `in` operator also finds keys on the prototype chain, such as `toString` or `__proto__`. The model sees own keys only, because the prototype chain is not part of a JSON value.
- JSON numbers are reals, with no NaN or infinities. `JSON.parse` cannot produce those, but the form object passed to `validateMentorData` is not `JSON.parse` output and could hold NaN. Leaving it out changes no result: NaN is a number and differs from `""`, so it counts as present, just as any other number does.
- The `console.error` call in the catch block of `getStoredUser` (auth.service.ts line 188) is not recorded; a parse failure only yields `null`.
- A `localStorage` call that throws (storage disabled or denied) is not modelled. `getStoredUser` would catch it and return `null` (lines 184-190); `getStoredToken` (line 214) and `logout` (lines 195-198) would pass it on to the caller.
- `JSON.parse` itself is a parameter and is not interpreted.
- The component's props are taken as fixed for its lifetime. The effect has an empty dependency list, so its handlers and cleanup keep the first render's `roomId`, `isCaller`, `socket` and `onEndCall`. But `handleEndCall` is rebuilt on every render and reads the current props (VoiceCall.tsx lines 98-102). If a parent re-rendered with a new `roomId` without remounting, the button would emit `call:end` for the new room while the offer filter still compared against the old one. The model has one room id per session and cannot express that.
- Calls on collaborators are assumed not to throw: `onEndCall`, `socket.emit`, `socket.on`, `socket.off`, the peer's `close()` and `CallService.endCall`. A throw would cut the recorded call sequence short. For example, if `socket.emit` or `onEndCall` threw in `handleEndCall` (lines 99-101) or in the `call:end` handler (lines 78-79), `CallService.endCall` would not run.
- `CallService` is not part of this model. What `initializeCall`, `createOffer`, `handleOffer` and `endCall` do inside is opaque; only the call and its resolved or rejected outcome are recorded.
- WebRTC internals are not modelled: media capture, session-description contents, ICE behaviour, and the `ontrack` handler that attaches the remote stream to the audio element.
- Rendering of the status text and the error line is not modelled.
- The relay server and room capacity are not part of this model.
- Asynchronous interleavings inside one socket handler are not modelled, for example two answers both passing the `null` check before `setRemoteDescription` resolves. Every socket handler is one atomic step. The set-up is modelled as two steps, one per `await`, so the cleanup may run before the peer arrives or while a caller awaits its offer.
- React strict-mode double effects are left out: the effect runs once.

=== FILE: dotted_path.dfy ===
/** `path.split(".")` as JavaScript defines it for a one-character separator,
    together with its inverse `parts.join(".")`. */
module DottedPath {

  const Dot: char := '.'

  /** No segment produced by a split contains the separator. */
  predicate DotFree(p: string) {
    forall i :: 0 <= i < |p| ==> p[i] != Dot
  }

  predicate AllDotFree(parts: seq<string>) {
    forall k :: 0 <= k < |parts| ==> DotFree(parts[k])
  }

  /** `parts.join(".")`; an empty list joins to the empty string. */
  function Join(parts: seq<string>): (r: string)
    ensures |parts| == 1 ==> r == parts[0]
    ensures |parts| > 0 ==> parts[0] <= r
    ensures |parts| > 1 ==> |parts[0]| < |r| && r[|parts[0]|] == Dot
  {
    if |parts| == 0 then ""
    else if |parts| == 1 then parts[0]
    else parts[0] + [Dot] + Join(parts[1..])
  }

  /** Number of separators in `s`. */
  function CountDots(s: string): nat {
    if |s| == 0 then 0
    else (if s[0] == Dot then 1 else 0) + CountDots(s[1..])
  }

  /** `s.split(".")`: the maximal dot-free runs of `s`, in order, keeping the
      empty runs before, between and after separators, so `""` splits to
      `[""]` and `"a..b"` to `["a", "", "b"]`. */
  function Split(s: string): (r: seq<string>)
    ensures |r| > 0
    ensures |r| <= |s| + 1
  {
    if |s| == 0 then [""]
    else
      var rest := Split(s[1..]);
      if s[0] == Dot then
        [""] + rest
      else
        [[s[0]] + rest[0]] + rest[1..]
  }

  /** Splitting yields one more segment than there are separators, none of
      them containing a separator, and joining them restores the string. */
  lemma SplitProperties(s: string)
    ensures |Split(s)| == CountDots(s) + 1
    ensures AllDotFree(Split(s))
    ensures Join(Split(s)) == s
  {
    SplitCount(s);
    SplitSegmentsDotFree(s);
    JoinSplit(s);
  }

  lemma {:induction false} SplitCount(s: string)
    ensures |Split(s)| == CountDots(s) + 1
    decreases |s|
  {
    if |s| > 0 {
      SplitCount(s[1..]);
    }
  }

  lemma {:induction false} SplitSegmentsDotFree(s: string)
    ensures AllDotFree(Split(s))
    decreases |s|
  {
    if |s| > 0 {
      SplitSegmentsDotFree(s[1..]);
      var rest := Split(s[1..]);
      var r := Split(s);
      if s[0] != Dot {
        assert forall k :: 1 <= k < |r| ==> r[k] == rest[k];
        assert DotFree(r[0]) by {
          forall i | 0 <= i < |r[0]|
            ensures r[0][i] != Dot
          {
            if i > 0 {
              assert r[0][i] == rest[0][i - 1];
            }
          }
        }
      } else {
        assert forall k :: 1 <= k < |r| ==> r[k] == rest[k - 1];
      }
    }
  }

  lemma {:induction false} JoinSplit(s: string)
    ensures Join(Split(s)) == s
    decreases |s|
  {
    if |s| > 0 {
      JoinSplit(s[1..]);
      var rest := Split(s[1..]);
      if s[0] == Dot {
        assert Split(s) == [""] + rest;
        JoinCons("", rest);
        assert s == [Dot] + s[1..];
      } else {
        var r := Split(s);
        assert r[0] == [s[0]] + rest[0];
        if |rest| == 1 {
          assert s == [s[0]] + s[1..];
        } else {
          JoinCons(r[0], rest[1..]);
          JoinCons(rest[0], rest[1..]);
          assert [r[0]] + rest[1..] == r;
          assert [rest[0]] + rest[1..] == rest;
          assert s == [s[0]] + s[1..];
        }
      }
    }
  }

  /** Joining a dot-free first segment onto a non-empty tail. */
  lemma {:induction false} JoinCons(head: string, tail: seq<string>)
    requires |tail| > 0
    ensures Join([head] + tail) == head + [Dot] + Join(tail)
  {
    assert ([head] + tail)[1..] == tail;
  }

  /** Splitting a joined list of dot-free segments gives the list back:
      `split` is the inverse of `join` on the paths it can produce. */
  lemma {:induction false} SplitJoin(parts: seq<string>)
    requires |parts| > 0
    requires AllDotFree(parts)
    ensures Split(Join(parts)) == parts
  {
    if |parts| == 1 {
      SplitDotFree(parts[0]);
    } else {
      var tail := parts[1..];
      assert AllDotFree(tail) by {
        forall k | 0 <= k < |tail|
          ensures DotFree(tail[k])
        {
          assert tail[k] == parts[k + 1];
        }
      }
      SplitJoin(tail);
      SplitPrefix(parts[0], Join(tail));
      assert [parts[0]] + tail == parts;
    }
  }

  /** A dot-free string splits to itself alone. */
  lemma {:induction false} SplitDotFree(p: string)
    requires DotFree(p)
    ensures Split(p) == [p]
  {
    if |p| > 0 {
      assert DotFree(p[1..]) by {
        forall i | 0 <= i < |p[1..]|
          ensures p[1..][i] != Dot
        {
          assert p[1..][i] == p[i + 1];
        }
      }
      SplitDotFree(p[1..]);
      assert [p[0]] + p[1..] == p;
    }
  }

  /** Splitting `head + "." + rest` with a dot-free head yields head, then
      the split of rest. */
  lemma {:induction false} SplitPrefix(head: string, rest: string)
    requires DotFree(head)
    ensures Split(head + [Dot] + rest) == [head] + Split(rest)
  {
    var s := head + [Dot] + rest;
    if |head| == 0 {
      assert s == [Dot] + rest;
      assert s[1..] == rest;
    } else {
      assert s[0] == head[0];
      assert s[1..] == head[1..] + [Dot] + rest;
      assert DotFree(head[1..]) by {
        forall i | 0 <= i < |head[1..]|
          ensures head[1..][i] != Dot
        {
          assert head[1..][i] == head[i + 1];
        }
      }
      SplitPrefix(head[1..], rest);
      assert [head[0]] + head[1..] == head;
    }
  }
}

=== FILE: json_value.dfy ===
/** Values as JavaScript sees them after `JSON.parse` or in a form object:
    the JSON kinds plus `undefined`, which a `Partial<...>` object may hold. */
module JsonValue {

  /** Numbers are modelled as reals; NaN and infinities are not represented.
      `JSON.parse` cannot produce them. A form object could hold NaN, but NaN
      differs from `""` and so would count as present like any other number. */
  datatype Json =
    | Obj(fields: map<string, Json>)
    | Arr(items: seq<Json>)
    | Str(s: string)
    | Num(n: real)
    | Bool(b: bool)
    | Null
    | Undefined

  /** `typeof v` is "string", "number" or "boolean". */
  predicate IsPrimitive(v: Json) {
    v.Str? || v.Num? || v.Bool?
  }

  /** The values `getNestedValue` may return: `string | number | boolean`. */
  type Primitive = v: Json | IsPrimitive(v) witness Str("")

  /** JavaScript truthiness (`!!v`): objects and arrays are truthy even when
      empty; `""`, `0`, `false`, `null` and `undefined` are falsy. */
  function Truthy(v: Json): (r: bool)
    ensures IsNonNullObject(v) ==> r
    ensures v == Null || v == Undefined || v == Str("") || v == Num(0.0) || v == Bool(false) ==> !r
    ensures r ==> IsNonNullObject(v) || (IsPrimitive(v) && v != Str(""))
  {
    match v
    case Obj(_) => true
    case Arr(_) => true
    case Str(s) => s != ""
    case Num(n) => n != 0.0
    case Bool(b) => b
    case Null => false
    case Undefined => false
  }

  /** `typeof v === "object"` and `v` is truthy, i.e. a non-null object or array. */
  predicate IsNonNullObject(v: Json) {
    v.Obj? || v.Arr?
  }
}

=== FILE: mentor_validation.dfy ===
/** Mentor-registration data checks of the authentication service:
    `getNestedValue` walks a dotted path through a nested value, and
    `validateMentorData` demands that five fixed paths hold a non-empty value. */
module MentorValidation {
  import opened Wrappers
  import opened JsonValue
  import opened DottedPath

  // ---------------------------------------------------------------------
  // Property access as the `in` operator and `obj[key]` perform it
  // ---------------------------------------------------------------------

  predicate IsDigit(c: char) {
    '0' <= c <= '9'
  }

  predicate AllDigits(p: string) {
    forall i :: 0 <= i < |p| ==> IsDigit(p[i])
  }

  /** An array-index property name: "0", or decimal digits without a leading
      zero. Such a name is never `length` and survives a split on dots. */
  function IsCanonicalIndex(p: string): (r: bool)
    ensures r ==> p != "length" && DotFree(p)
  {
    |p| > 0 && AllDigits(p) && (p[0] != '0' || |p| == 1)
  }

  /** Decimal value of a digit string, most significant digit first; a
      string with a non-zero leading digit denotes a positive number. */
  function DigitsValue(p: string): (n: nat)
    requires AllDigits(p)
    ensures |p| > 0 && p[0] != '0' ==> n >= 1
  {
    if |p| == 0 then 0
    else DigitsValue(p[..|p| - 1]) * 10 + (p[|p| - 1] as int - '0' as int)
  }

  /** The digit character for `d`. */
  function DigitChar(d: nat): (c: char)
    requires d < 10
    ensures IsDigit(c) && c as int - '0' as int == d
  {
    ('0' as int + d) as char
  }

  /** `String(n)` for an array index: the decimal digits of `n`. */
  function IndexString(n: nat): (p: string)
    ensures |p| > 0 && AllDigits(p)
    ensures n >= 1 ==> p[0] != '0'
  {
    if n < 10 then [DigitChar(n)] else IndexString(n / 10) + [DigitChar(n % 10)]
  }

  /** `key in v` for a non-null object or array: an own key of an object; an
      in-range index or `length` of an array. Nothing else has keys. */
  function HasKey(v: Json, key: string): (r: bool)
    ensures r ==> IsNonNullObject(v)
    ensures v.Arr? && key == "length" ==> r
  {
    match v
    case Obj(m) => key in m
    case Arr(a) => key == "length" || (IsCanonicalIndex(key) && DigitsValue(key) < |a|)
    case _ => false
  }

  /** `v[key]`, once `key in v` is known: a child of `v`, or an array's length. */
  function Get(v: Json, key: string): (r: Json)
    requires HasKey(v, key)
    ensures v.Obj? ==> r in v.fields.Values
    ensures v.Arr? && key != "length" ==> r in v.items
    ensures v.Arr? && key == "length" ==> r == Num(|v.items| as real)
  {
    match v
    case Obj(m) => m[key]
    case Arr(a) => if key == "length" then Num(|a| as real) else a[DigitsValue(key)]
  }

  /** One step of the walk: the guard `result && typeof result === "object"
      && part in result` followed by `result[part]`; None when the guard fails. */
  function Descend(v: Json, key: string): (r: Option<Json>)
    ensures r.Some? <==> IsNonNullObject(v) && HasKey(v, key)
    ensures v.Obj? && key in v.fields ==> r == Some(v.fields[key])
  {
    if IsNonNullObject(v) && HasKey(v, key) then Some(Get(v, key)) else None
  }

  /** The loop over the path segments: the value reached, or None on the
      first segment whose guard fails. */
  function Resolve(v: Json, parts: seq<string>): (r: Option<Json>)
    ensures |parts| == 0 ==> r == Some(v)
    ensures |parts| > 0 && r.Some? ==> IsNonNullObject(v) && HasKey(v, parts[0])
    decreases |parts|
  {
    if |parts| == 0 then Some(v)
    else
      match Descend(v, parts[0])
      case None => None
      case Some(child) => Resolve(child, parts[1..])
  }

  /** `getNestedValue(obj, path)`: the primitive at the end of the dotted path,
      or `""` when the walk stops early or ends on a non-primitive. */
  function GetNestedValue(obj: Json, path: string): (r: Primitive)
    ensures r != Str("") ==> Resolve(obj, Split(path)) == Some(r)
  {
    match Resolve(obj, Split(path))
    case None => Str("")
    case Some(leaf) => if IsPrimitive(leaf) then leaf else Str("")
  }

  // ---------------------------------------------------------------------
  // validateMentorData
  // ---------------------------------------------------------------------

  /** The paths every mentor registration must fill, in the order checked. */
  const RequiredFields: seq<string> :=
    ["userName", "mentor.name", "mentor.email", "mentor.gender", "mentor.specialization"]

  /** The per-field test `value !== undefined && value !== ""`; since the
      looked-up value is never `undefined`, only its second half decides. */
  function FieldFilled(data: Json, field: string): (filled: bool)
    ensures filled <==> GetNestedValue(data, field) != Str("")
  {
    var value := GetNestedValue(data, field);
    value != Undefined && value != Str("")
  }

  /** `fields.every(...)`, evaluated left to right. */
  function AllFilled(data: Json, fields: seq<string>): (ok: bool)
    ensures ok <==> forall i :: 0 <= i < |fields| ==> GetNestedValue(data, fields[i]) != Str("")
  {
    if |fields| == 0 then true
    else FieldFilled(data, fields[0]) && AllFilled(data, fields[1..])
  }

  function ValidateMentorData(data: Json): (ok: bool)
    ensures ok <==> forall i :: 0 <= i < |RequiredFields| ==> GetNestedValue(data, RequiredFields[i]) != Str("")
  {
    AllFilled(data, RequiredFields)
  }

  // ---------------------------------------------------------------------
  // Independent description of an acceptable registration
  // ---------------------------------------------------------------------

  /** A value the validator accepts for a field: a string, number or boolean
      other than the empty string, so `0` and `false` count as present. */
  predicate Present(v: Json) {
    IsPrimitive(v) && v != Str("")
  }

  predicate FieldPresent(m: map<string, Json>, key: string) {
    key in m && Present(m[key])
  }

  /** `data.mentor` is an object whose `key` is present. */
  predicate MentorHas(data: Json, key: string) {
    && data.Obj?
    && "mentor" in data.fields
    && data.fields["mentor"].Obj?
    && FieldPresent(data.fields["mentor"].fields, key)
  }

  /** The shape the validator demands, written directly over the data: an
      object with a present `userName` and an object `mentor` holding a present
      `name`, `email`, `gender` and `specialization`. */
  predicate MentorShaped(data: Json) {
    && data.Obj?
    && FieldPresent(data.fields, "userName")
    && MentorHas(data, "name")
    && MentorHas(data, "email")
    && MentorHas(data, "gender")
    && MentorHas(data, "specialization")
  }

  // ---------------------------------------------------------------------
  // Lemmas about the walk
  // ---------------------------------------------------------------------

  /** Walking `p + q` is walking `p`, then `q` from where `p` ended. */
  lemma {:induction false} ResolveAppend(v: Json, p: seq<string>, q: seq<string>)
    ensures Resolve(v, p + q) == (match Resolve(v, p) case None => None case Some(mid) => Resolve(mid, q))
    decreases |p|
  {
    if |p| == 0 {
      assert p + q == q;
    } else {
      assert (p + q)[0] == p[0];
      assert (p + q)[1..] == p[1..] + q;
      match Descend(v, p[0])
      case None =>
      case Some(child) => ResolveAppend(child, p[1..], q);
    }
  }

  /** The walk yields `""` as soon as a segment is absent or the value reached
      so far is not a non-null object, whatever the later segments are. */
  lemma {:induction false} EarlyMissYieldsEmpty(obj: Json, path: string, k: nat, mid: Json)
    requires k < |Split(path)|
    requires Resolve(obj, Split(path)[..k]) == Some(mid)
    requires !IsNonNullObject(mid) || !HasKey(mid, Split(path)[k])
    ensures GetNestedValue(obj, path) == Str("")
  {
    var parts := Split(path);
    assert parts == parts[..k] + parts[k..];
    ResolveAppend(obj, parts[..k], parts[k..]);
    assert parts[k..][0] == parts[k];
  }

  /** A walk that ends on an object, array, null or undefined yields `""`;
      one that ends on a string, number or boolean yields it unchanged. */
  lemma LeafKind(obj: Json, path: string, leaf: Json)
    requires Resolve(obj, Split(path)) == Some(leaf)
    ensures !IsPrimitive(leaf) ==> GetNestedValue(obj, path) == Str("")
    ensures IsPrimitive(leaf) ==> GetNestedValue(obj, path) == leaf
  {
  }

  /** The result never is `undefined`, so the validator's `undefined` test
      cannot fire: a field is filled exactly when its value is not `""`. */
  lemma UndefinedCheckIsDead(data: Json, field: string)
    ensures GetNestedValue(data, field) != Undefined
    ensures FieldFilled(data, field) <==> GetNestedValue(data, field) != Str("")
  {
  }

  /** Array indices: the decimal name of an index reads back as that index,
      and every canonical index name is the decimal name of its value. */
  lemma {:induction false} IndexStringRoundTrip(n: nat)
    ensures IsCanonicalIndex(IndexString(n)) && DigitsValue(IndexString(n)) == n
    decreases n
  {
    var p := IndexString(n);
    if n >= 10 {
      var q := IndexString(n / 10);
      IndexStringRoundTrip(n / 10);
      assert p[..|p| - 1] == q;
    }
  }

  lemma {:induction false} CanonicalIndexRoundTrip(p: string)
    requires IsCanonicalIndex(p)
    ensures IndexString(DigitsValue(p)) == p
    decreases |p|
  {
    if |p| > 1 {
      var q := p[..|p| - 1];
      assert IsCanonicalIndex(q);
      CanonicalIndexRoundTrip(q);
      var n := DigitsValue(p);
      assert n / 10 == DigitsValue(q) && n % 10 == p[|p| - 1] as int - '0' as int;
      assert p == q + [p[|p| - 1]];
    }
  }

  /** Every in-range index of an array is a key of it, reading its element. */
  lemma ArrayHasEveryIndex(a: seq<Json>, n: nat)
    requires n < |a|
    ensures HasKey(Arr(a), IndexString(n)) && Get(Arr(a), IndexString(n)) == a[n]
  {
    IndexStringRoundTrip(n);
  }

  // ---------------------------------------------------------------------
  // Writing along a path, the partner of the walk
  // ---------------------------------------------------------------------

  /** Stores `leaf` at `parts` in `v`, creating (or replacing non-objects by)
      empty objects along the way and keeping every other key. */
  function SetPath(v: Json, parts: seq<string>, leaf: Json): (r: Json)
    ensures |parts| > 0 ==> r.Obj? && parts[0] in r.fields
    decreases |parts|
  {
    if |parts| == 0 then leaf
    else
      var base := if v.Obj? then v.fields else map[];
      var child := if parts[0] in base then base[parts[0]] else Obj(map[]);
      Obj(base[parts[0] := SetPath(child, parts[1..], leaf)])
  }

  /** Whatever was stored at a path is what the walk finds there. */
  lemma {:induction false} ResolveSetPath(v: Json, parts: seq<string>, leaf: Json)
    ensures Resolve(SetPath(v, parts, leaf), parts) == Some(leaf)
    decreases |parts|
  {
    if |parts| > 0 {
      var base := if v.Obj? then v.fields else map[];
      var child := if parts[0] in base then base[parts[0]] else Obj(map[]);
      ResolveSetPath(child, parts[1..], leaf);
    }
  }

  /** Round trip: a primitive written at `path` is read back unchanged. */
  lemma {:induction false} GetNestedValueAfterSet(obj: Json, path: string, leaf: Primitive)
    ensures GetNestedValue(SetPath(obj, Split(path), leaf), path) == leaf
  {
    ResolveSetPath(obj, Split(path), leaf);
  }

  // ---------------------------------------------------------------------
  // Lemmas about the validator
  // ---------------------------------------------------------------------

  /** A path of two dot-free segments splits into those two segments. */
  lemma {:induction false} TwoSegments(a: string, b: string)
    requires DotFree(a) && DotFree(b)
    ensures Split(a + "." + b) == [a, b]
  {
    SplitJoin([a, b]);
    assert Join([a, b]) == a + "." + b by {
      assert [a, b][1..] == [b];
    }
  }

  /** A property name that is not `length` and does not start with a digit. */
  predicate PlainKey(key: string) {
    key != "length" && |key| > 0 && !IsDigit(key[0])
  }

  /** A plain property name names nothing on an array, so only an object
      can supply it. */
  lemma PlainKeyDescend(v: Json, key: string)
    requires PlainKey(key)
    ensures Descend(v, key) == (if v.Obj? && key in v.fields then Some(v.fields[key]) else None)
  {
  }

  /** A one-segment path holds a present value exactly when the data is an
      object with that key present. */
  lemma {:induction false} OneSegmentField(data: Json, a: string)
    requires PlainKey(a) && DotFree(a)
    ensures GetNestedValue(data, a) != Str("") <==> data.Obj? && FieldPresent(data.fields, a)
  {
    SplitDotFree(a);
    PlainKeyDescend(data, a);
    assert [a][1..] == [];
    assert Resolve(data, [a]) == Descend(data, a);
  }

  /** A two-segment path holds a present value exactly when the data is an
      object whose first key is an object with the second key present. */
  lemma {:induction false} TwoSegmentField(data: Json, a: string, b: string)
    requires PlainKey(a) && DotFree(a) && PlainKey(b) && DotFree(b)
    ensures GetNestedValue(data, a + "." + b) != Str("") <==>
      data.Obj? && a in data.fields && data.fields[a].Obj? && FieldPresent(data.fields[a].fields, b)
  {
    TwoSegments(a, b);
    PlainKeyDescend(data, a);
    assert [a, b][1..] == [b];
    assert [b][1..] == [];
    match Descend(data, a)
    case None =>
      assert Resolve(data, [a, b]) == None;
    case Some(child) =>
      PlainKeyDescend(child, b);
      assert Resolve(data, [a, b]) == Resolve(child, [b]) == Descend(child, b);
  }

  /** `mentor.<b>` holds a present value exactly when `mentor` is an object
      with `b` present. */
  lemma {:induction false} MentorField(data: Json, b: string)
    requires PlainKey(b) && DotFree(b)
    ensures GetNestedValue(data, "mentor." + b) != Str("") <==> MentorHas(data, b)
  {
    assert PlainKey("mentor") && DotFree("mentor");
    TwoSegmentField(data, "mentor", b);
    assert "mentor" + "." + b == "mentor." + b;
  }

  /** What the `userName` path demands of the data. */
  lemma {:induction false} UserNameField(data: Json)
    ensures GetNestedValue(data, "userName") != Str("") <==>
      data.Obj? && FieldPresent(data.fields, "userName")
  {
    assert PlainKey("userName") && DotFree("userName");
    OneSegmentField(data, "userName");
  }

  /** What the four `mentor.*` paths demand of the data. */
  lemma {:induction false} MentorNameField(data: Json)
    ensures GetNestedValue(data, "mentor.name") != Str("") <==> MentorHas(data, "name")
  {
    assert PlainKey("name") && DotFree("name");
    MentorField(data, "name");
    assert "mentor.name" == "mentor." + "name";
  }

  lemma {:induction false} MentorEmailField(data: Json)
    ensures GetNestedValue(data, "mentor.email") != Str("") <==> MentorHas(data, "email")
  {
    assert PlainKey("email") && DotFree("email");
    MentorField(data, "email");
    assert "mentor.email" == "mentor." + "email";
  }

  lemma {:induction false} MentorGenderField(data: Json)
    ensures GetNestedValue(data, "mentor.gender") != Str("") <==> MentorHas(data, "gender")
  {
    assert PlainKey("gender") && DotFree("gender");
    MentorField(data, "gender");
    assert "mentor.gender" == "mentor." + "gender";
  }

  lemma {:induction false} MentorSpecializationField(data: Json)
    ensures GetNestedValue(data, "mentor.specialization") != Str("") <==> MentorHas(data, "specialization")
  {
    assert PlainKey("specialization") && DotFree("specialization");
    MentorField(data, "specialization");
    assert "mentor.specialization" == "mentor." + "specialization";
  }

  /** Data the validator accepts has the expected shape. */
  lemma {:induction false} ValidateSound(data: Json)
    requires ValidateMentorData(data)
    ensures MentorShaped(data)
  {
    var f := RequiredFields;
    assert GetNestedValue(data, f[0]) != Str("");
    UserNameField(data);
    assert GetNestedValue(data, f[1]) != Str("");
    MentorNameField(data);
    assert GetNestedValue(data, f[2]) != Str("");
    MentorEmailField(data);
    assert GetNestedValue(data, f[3]) != Str("");
    MentorGenderField(data);
    assert GetNestedValue(data, f[4]) != Str("");
    MentorSpecializationField(data);
  }

  /** Data of the expected shape is accepted. */
  lemma {:induction false} ValidateComplete(data: Json)
    requires MentorShaped(data)
    ensures ValidateMentorData(data)
  {
    var f := RequiredFields;
    forall i | 0 <= i < |f|
      ensures GetNestedValue(data, f[i]) != Str("")
    {
      if i == 0 {
        UserNameField(data);
      } else if i == 1 {
        MentorNameField(data);
      } else if i == 2 {
        MentorEmailField(data);
      } else if i == 3 {
        MentorGenderField(data);
      } else {
        MentorSpecializationField(data);
      }
    }
  }

  /** The validator accepts exactly the registrations of the expected shape. */
  lemma ValidateMentorDataSpec(data: Json)
    ensures ValidateMentorData(data) <==> MentorShaped(data)
  {
    if ValidateMentorData(data) {
      ValidateSound(data);
    }
    if MentorShaped(data) {
      ValidateComplete(data);
    }
  }

  /** Emptying any one required field makes the data invalid, whatever the
      other fields hold. */
  lemma {:induction false} ClearingAFieldRejects(data: Json, i: nat)
    requires i < |RequiredFields|
    ensures !ValidateMentorData(SetPath(data, Split(RequiredFields[i]), Str("")))
  {
    GetNestedValueAfterSet(data, RequiredFields[i], Str(""));
  }

  /** Any registration built from present values passes, and `0` and
      `false` are present values. */
  lemma {:induction false} FilledRegistrationAccepted(userName: Json, name: Json, email: Json, gender: Json, specialization: Json)
    requires Present(userName) && Present(name) && Present(email)
    requires Present(gender) && Present(specialization)
    ensures Present(Num(0.0)) && Present(Bool(false)) && !Present(Str(""))
    ensures ValidateMentorData(Obj(map[
      "userName" := userName,
      "mentor" := Obj(map[
        "name" := name, "email" := email,
        "gender" := gender, "specialization" := specialization])]))
  {
    var mentor := map["name" := name, "email" := email, "gender" := gender, "specialization" := specialization];
    var data := Obj(map["userName" := userName, "mentor" := Obj(mentor)]);
    assert data.fields["mentor"].fields == mentor;
    ValidateComplete(data);
  }
}

=== FILE: session_store.dfy ===
/** The authentication service's session helpers over the browser's
    `localStorage`: reading the stored token and user, deciding whether a
    user is signed in, and signing out. */
module SessionStore {
  import opened Wrappers
  import opened JsonValue

  /** The browser as the service sees it: whether a `window` exists (it does
      not during server-side rendering) and the entries of `localStorage`. */
  datatype Browser = Browser(hasWindow: bool, storage: map<string, string>)

  /** `JSON.parse`, which the model does not interpret: None when it throws. */
  type Parser = string -> Option<Json>

  const UserKey: string := "user"
  const TokenKey: string := "authToken"

  /** The entries a sign-in writes and a sign-out removes. */
  const SessionKeys: set<string> := {"authToken", "needsPasswordChange", "user", "isAuthenticated"}

  /** `localStorage.getItem(key)`; None stands for `null`. */
  function GetItem(b: Browser, key: string): (r: Option<string>)
    ensures r.Some? <==> key in b.storage
    ensures r.Some? ==> r.value == b.storage[key]
  {
    if key in b.storage then Some(b.storage[key]) else None
  }

  /** `localStorage.removeItem(key)`. */
  function RemoveItem(b: Browser, key: string): (r: Browser)
    ensures r.hasWindow == b.hasWindow
    ensures r.storage.Keys == b.storage.Keys - {key}
    ensures forall k :: k in r.storage ==> r.storage[k] == b.storage[k]
  {
    b.(storage := b.storage - {key})
  }

  /** `getStoredUser()`: the parsed `user` entry, or `null` without a window,
      without an entry, with an empty entry, or when parsing throws. */
  function GetStoredUser(b: Browser, parse: Parser): (u: Json)
    ensures !b.hasWindow ==> u == Null
    ensures UserKey !in b.storage || b.storage[UserKey] == "" ==> u == Null
    ensures b.hasWindow && UserKey in b.storage && b.storage[UserKey] != "" ==>
      u == parse(b.storage[UserKey]).GetOr(Null)
  {
    if !b.hasWindow then Null
    else
      match GetItem(b, UserKey)
      case None => Null
      case Some(userStr) =>
        if userStr == "" then Null
        else
          match parse(userStr)
          case None => Null
          case Some(v) => v
  }

  /** `isAuthenticated()`: `!!getStoredUser()`. Only a window holding a
      non-empty `user` entry can be signed in. */
  function IsAuthenticated(b: Browser, parse: Parser): (r: bool)
    ensures r ==> b.hasWindow && UserKey in b.storage && b.storage[UserKey] != ""
    ensures r ==> parse(b.storage[UserKey]).Some?
  {
    Truthy(GetStoredUser(b, parse))
  }

  /** `getStoredToken()`: the `authToken` entry, or `null`. */
  function GetStoredToken(b: Browser): (t: Option<string>)
    ensures t.Some? <==> b.hasWindow && TokenKey in b.storage
    ensures t.Some? ==> t.value == b.storage[TokenKey]
  {
    if b.hasWindow then GetItem(b, TokenKey) else None
  }

  /** `logout()`: removes the four session entries, one after another. */
  function Logout(b: Browser): (r: Browser)
    ensures r.hasWindow == b.hasWindow
    ensures !b.hasWindow ==> r == b
    ensures b.hasWindow ==> r.storage.Keys == b.storage.Keys - SessionKeys
    ensures forall k :: k in r.storage ==> r.storage[k] == b.storage[k]
  {
    if b.hasWindow then
      var b1 := RemoveItem(b, "authToken");
      var b2 := RemoveItem(b1, "needsPasswordChange");
      var b3 := RemoveItem(b2, "user");
      RemoveItem(b3, "isAuthenticated")
    else b
  }

  /** A user counts as signed in exactly when a window exists and the `user`
      entry is non-empty and parses to a truthy value. */
  lemma IsAuthenticatedSpec(b: Browser, parse: Parser)
    ensures IsAuthenticated(b, parse) <==>
      && b.hasWindow
      && UserKey in b.storage
      && b.storage[UserKey] != ""
      && parse(b.storage[UserKey]).Some?
      && Truthy(parse(b.storage[UserKey]).value)
  {
  }

  /** An entry that does not parse yields `null` and "not signed in"; the
      failure does not escape. */
  lemma ParseFailureIsNull(b: Browser, parse: Parser)
    requires UserKey in b.storage && parse(b.storage[UserKey]).None?
    ensures GetStoredUser(b, parse) == Null
    ensures !IsAuthenticated(b, parse)
  {
  }

  /** Signing out twice is signing out once. */
  lemma {:induction false} LogoutIdempotent(b: Browser)
    ensures Logout(Logout(b)) == Logout(b)
  {
    var once := Logout(b);
    var twice := Logout(once);
    if b.hasWindow {
      assert twice.storage.Keys == once.storage.Keys;
      assert twice.storage == once.storage;
    }
  }

  /** A sign-out touches nothing but the session entries: every other key,
      present or absent, and with a window or without one, reads the same
      before and after. */
  lemma LogoutKeepsOtherKeys(b: Browser, k: string)
    requires k !in SessionKeys
    ensures GetItem(Logout(b), k) == GetItem(b, k)
  {
  }

  /** After a sign-out nobody is signed in, whatever the parser, and no token
      is stored. */
  lemma {:induction false} LogoutSignsOut(b: Browser, parse: Parser)
    ensures GetStoredUser(Logout(b), parse) == Null || !b.hasWindow
    ensures b.hasWindow ==> !IsAuthenticated(Logout(b), parse)
    ensures GetStoredToken(Logout(b)).None?
      || (!b.hasWindow && GetStoredToken(Logout(b)) == GetStoredToken(b))
  {
    var r := Logout(b);
    if b.hasWindow {
      assert UserKey in SessionKeys && TokenKey in SessionKeys;
      assert UserKey !in r.storage && TokenKey !in r.storage;
    }
  }
}

=== FILE: voice_call.dfy ===
/** The voice-call component as a transition system. React state, the socket
    and the peer connection are reduced to an abstract session record; the
    calls the component makes on the socket, the peer connection, the call
    service and its host are recorded, in order, in an append-only trace.
    The set-up waits twice, for the peer and, when calling, for the offer;
    each wait ends in a step of its own. Each socket handler runs as one
    atomic step. */
module VoiceCall {

  /** The socket events the component listens on or emits. */
  datatype Channel = CallOffer | CallAnswer | IceCandidate | CallEnd

  /** The handlers the set-up registers. */
  const AllChannels: set<Channel> := {CallOffer, CallAnswer, IceCandidate, CallEnd}

  /** The handlers the effect cleanup removes; `call:end` is not among them. */
  const CleanedChannels: set<Channel> := {CallOffer, CallAnswer, IceCandidate}

  /** The message shown when the set-up fails. */
  const InitFailureMessage: string := "Failed to initialize call"

  /** A call made by the component on a collaborator. */
  datatype Effect =
    | InitializeCall(room: string)       // CallService.initializeCall(socket, roomId)
    | CreateOffer(room: string)          // CallService.createOffer(peer, socket, roomId)
    | On(channel: Channel)               // socket.on(channel, handler)
    | HandleOffer(room: string)          // CallService.handleOffer(peer, socket, offer, roomId)
    | SetRemoteDescription               // peer.setRemoteDescription(answer)
    | AddIceCandidate                    // peer.addIceCandidate(candidate)
    | LogError                           // console.error(...)
    | Emit(channel: Channel, room: string) // socket.emit(channel, { roomId })
    | NotifyEndCall                      // the host's onEndCall()
    | EndCall                            // CallService.endCall()
    | ClosePeer                          // peer.close()
    | Off(channel: Channel)              // socket.off(channel)

  /** Progress of the asynchronous set-up started on mount: waiting for the
      peer, a caller waiting for its offer, handlers registered, or failed. */
  datatype Setup = Pending | AwaitingOffer | Ready | Failed

  /** The component's state: its props (`roomId`, `isCaller`), its React state
      (`isConnected`, `error`), the set-up's local `peerConnection` (present or
      not) and that peer's remote description (set or `null`), the socket
      handlers currently registered, whether the component is still mounted,
      and the trace of calls made so far. */
  datatype Session = Session(
    roomId: string,
    isCaller: bool,
    setup: Setup,
    hasPeer: bool,
    isConnected: bool,
    error: string,
    remoteDescSet: bool,
    handlers: set<Channel>,
    mounted: bool,
    trace: seq<Effect>)

  /** What can happen to the component. The outcome of each opaque
      asynchronous call is carried by the event that reports it. Every event
      may also arrive after the cleanup: the set-up resumes and the socket
      delivers regardless. `EndClicked` is accepted then too, although the
      button is no longer rendered; this over-approximates the environment,
      so the facts proved for all event sequences still hold. */
  datatype Event =
    | PeerReady                              // initializeCall resolved
    | InitRejected                           // initializeCall rejected
    | OfferSettled(ok: bool)                 // a caller's createOffer resolved (ok) or rejected
    | OfferArrived(room: string, applied: bool)   // "call-offer"; whether handleOffer set the remote description
    | AnswerArrived(room: string, applied: bool)  // "call-answer"; whether setRemoteDescription resolved
    | CandidateArrived(room: string, accepted: bool) // "ice-candidate"; whether addIceCandidate resolved
    | EndArrived(room: string)               // "call:end" from the other side
    | EndClicked                             // the end-call button
    | Unmounted                              // the effect cleanup

  /** Mounting starts the set-up by asking the call service for a peer. */
  function Mount(roomId: string, isCaller: bool): (s: Session)
    ensures Valid(s) && s.mounted && s.setup == Pending
    ensures !s.isConnected && s.error == "" && s.handlers == {}
  {
    Session(roomId, isCaller, Pending, false, false, "", false, {}, true, [InitializeCall(roomId)])
  }

  /** React drops state updates on an unmounted component. */
  function SetConnected(s: Session): Session {
    if s.mounted then s.(isConnected := true) else s
  }

  function SetError(s: Session, message: string): Session {
    if s.mounted then s.(error := message) else s
  }

  /** The calls `handleEndCall` makes: it tells the other side about this
      room, then tears down exactly as a remote `call:end` does, and closes
      no peer itself. */
  function LocalEndCalls(roomId: string): (r: seq<Effect>)
    ensures |r| == 3 && r[0] == Emit(CallEnd, roomId) && r[1..] == RemoteEndCalls
    ensures ClosePeer !in r
  {
    [Emit(CallEnd, roomId), NotifyEndCall, EndCall]
  }

  /** The calls the `call:end` handler makes. */
  const RemoteEndCalls: seq<Effect> := [NotifyEndCall, EndCall]

  /** The calls the effect cleanup makes: it closes the peer exactly when
      one exists, unsubscribes the three cleaned channels but not
      `call:end`, and ends the call last. */
  function CleanupCalls(hasPeer: bool): (r: seq<Effect>)
    ensures ClosePeer in r <==> hasPeer
    ensures |r| > 0 && r[|r| - 1] == EndCall
    ensures Off(CallEnd) !in r
  {
    (if hasPeer then [ClosePeer] else [])
      + [Off(CallOffer), Off(CallAnswer), Off(IceCandidate), EndCall]
  }

  /** The handlers registered at the end of a successful set-up. */
  const Registrations: seq<Effect> := [On(CallOffer), On(CallAnswer), On(IceCandidate), On(CallEnd)]

  /** The calls an event makes, in order. */
  function Calls(s: Session, e: Event): (r: seq<Effect>)
    ensures !s.mounted ==> ClosePeer !in r
    ensures s.remoteDescSet ==> SetRemoteDescription !in r
    ensures CreateOffer(s.roomId) in r <==> e.PeerReady? && s.setup == Pending && s.isCaller
    ensures forall k :: 0 <= k < |r| && r[k].CreateOffer? ==> k == 0 && r[k].room == s.roomId
  {
    match e
    case PeerReady =>
      if s.setup != Pending then []
      else if s.isCaller then [CreateOffer(s.roomId)]
      else Registrations
    case InitRejected =>
      if s.setup == Pending then [LogError] else []
    case OfferSettled(ok) =>
      if s.setup != AwaitingOffer then []
      else if ok then Registrations
      else [LogError]
    case OfferArrived(room, _) =>
      if CallOffer in s.handlers && room == s.roomId && !s.isCaller then [HandleOffer(s.roomId)] else []
    case AnswerArrived(_, _) =>
      if CallAnswer in s.handlers && !s.remoteDescSet then [SetRemoteDescription] else []
    case CandidateArrived(_, accepted) =>
      if IceCandidate in s.handlers then [AddIceCandidate] + (if accepted then [] else [LogError]) else []
    case EndArrived(_) =>
      if CallEnd in s.handlers then RemoteEndCalls else []
    case EndClicked =>
      LocalEndCalls(s.roomId)
    case Unmounted =>
      if s.mounted then CleanupCalls(s.hasPeer) else []
  }

  /** How an event changes the session apart from its trace. */
  function Apply(s: Session, e: Event): (t: Session)
    ensures t.trace == s.trace && t.roomId == s.roomId && t.isCaller == s.isCaller
    ensures s.remoteDescSet ==> t.remoteDescSet
    ensures s.hasPeer ==> t.hasPeer
    ensures !s.mounted ==> !t.mounted && s.handlers <= t.handlers && t.isConnected == s.isConnected
  {
    match e
    case PeerReady =>
      if s.setup != Pending then s
      else
        // peerConnection = await ...; setIsConnected(true)
        var s1 := SetConnected(s.(hasPeer := true));
        // a callee goes on to register its handlers without waiting again
        if s.isCaller then s1.(setup := AwaitingOffer)
        else s1.(setup := Ready, handlers := s1.handlers + AllChannels)
    case InitRejected =>
      if s.setup == Pending then SetError(s, InitFailureMessage).(setup := Failed) else s
    case OfferSettled(ok) =>
      if s.setup != AwaitingOffer then s
      else if ok then s.(setup := Ready, handlers := s.handlers + AllChannels)
      else SetError(s, InitFailureMessage).(setup := Failed)
    case OfferArrived(room, applied) =>
      if CallOffer in s.handlers && room == s.roomId && !s.isCaller then
        s.(remoteDescSet := s.remoteDescSet || applied)
      else s
    case AnswerArrived(_, applied) =>
      if CallAnswer in s.handlers && !s.remoteDescSet then s.(remoteDescSet := applied) else s
    case CandidateArrived(_, _) => s
    case EndArrived(_) => s
    case EndClicked => s
    case Unmounted =>
      if s.mounted then s.(mounted := false, handlers := s.handlers - CleanedChannels) else s
  }

  /** One step of the component: its state change, and its calls appended
      to the trace. */
  function Step(s: Session, e: Event): (t: Session)
    ensures t.roomId == s.roomId && t.isCaller == s.isCaller
    ensures s.trace <= t.trace
    ensures s.remoteDescSet ==> t.remoteDescSet
  {
    Apply(s, e).(trace := s.trace + Calls(s, e))
  }

  /** The state after a sequence of events. */
  function Run(s: Session, events: seq<Event>): (t: Session)
    ensures t.roomId == s.roomId && t.isCaller == s.isCaller
    ensures s.trace <= t.trace
    decreases |events|
  {
    if |events| == 0 then s else Run(Step(s, events[0]), events[1..])
  }

  // ---------------------------------------------------------------------
  // The invariant of every reachable session
  // ---------------------------------------------------------------------

  /** At most one offer, and only by a caller that holds a peer. */
  predicate OffersSound(s: Session) {
    && (forall i :: 0 <= i < |s.trace| && s.trace[i].CreateOffer? ==>
          s.isCaller && s.hasPeer && s.setup != Pending && s.trace[i].room == s.roomId)
    && (forall i, j ::
          0 <= i < |s.trace| && 0 <= j < |s.trace| && s.trace[i].CreateOffer? && s.trace[j].CreateOffer?
          ==> i == j)
  }

  predicate Valid(s: Session) {
    && |s.trace| > 0 && s.trace[0] == InitializeCall(s.roomId)
    // "Connected" is shown only once the call service handed out a peer
    && (s.isConnected ==> s.hasPeer)
    // while mounted, holding a peer shows "Connected"
    && (s.mounted && s.hasPeer ==> s.isConnected)
    // before the set-up finishes there is no peer, handler or error
    && (s.setup == Pending ==> !s.hasPeer && s.handlers == {} && s.error == "" && !s.remoteDescSet)
    // only a caller waits for its offer, holding a peer
    && (s.setup == AwaitingOffer ==> s.hasPeer && s.isCaller && s.error == "")
    // the only error is the set-up failure
    && (s.error != "" ==> s.error == InitFailureMessage && s.setup == Failed)
    // handlers exist only after a successful set-up
    && (s.setup != Ready ==> s.handlers == {} && !s.remoteDescSet)
    && (s.setup == Ready ==> s.hasPeer && s.error == "" && CallEnd in s.handlers)
    && (s.setup == Ready && s.mounted ==> s.handlers == AllChannels)
    && OffersSound(s)
  }

  /** Only a set-up that has not finished yet creates an offer, and then
      as the first of its calls. */
  lemma CallsOffers(s: Session, e: Event)
    ensures forall k :: 0 < k < |Calls(s, e)| ==> !Calls(s, e)[k].CreateOffer?
    ensures |Calls(s, e)| > 0 && Calls(s, e)[0].CreateOffer? ==>
      e.PeerReady? && s.setup == Pending && s.isCaller && Calls(s, e)[0] == CreateOffer(s.roomId)
  {
  }

  lemma {:induction false} StepValid(s: Session, e: Event)
    requires Valid(s)
    ensures Valid(Step(s, e))
  {
    var t := Step(s, e);
    var added := Calls(s, e);
    CallsOffers(s, e);
    assert t.trace == s.trace + added;
    assert forall i :: |s.trace| <= i < |t.trace| ==> t.trace[i] == added[i - |s.trace|];
    if s.setup == Pending {
      assert forall i :: 0 <= i < |s.trace| ==> !s.trace[i].CreateOffer?;
    }
  }

  /** Every session reached from a valid one is valid. */
  lemma {:induction false} RunValid(s: Session, events: seq<Event>)
    requires Valid(s)
    ensures Valid(Run(s, events))
    decreases |events|
  {
    if |events| > 0 {
      StepValid(s, events[0]);
      RunValid(Step(s, events[0]), events[1..]);
    }
  }

  /** Every session of a mounted component is valid: "Connected" implies a
      peer, and at most one offer is ever created, by a caller holding a peer,
      for its own room. */
  lemma {:induction false} ReachableSessionsSound(roomId: string, isCaller: bool, events: seq<Event>)
    ensures var t := Run(Mount(roomId, isCaller), events);
      && (t.isConnected ==> t.hasPeer)
      && (forall i :: 0 <= i < |t.trace| && t.trace[i].CreateOffer? ==>
            isCaller && t.hasPeer && t.trace[i].room == roomId)
      && (forall i, j ::
            0 <= i < |t.trace| && 0 <= j < |t.trace| && t.trace[i].CreateOffer? && t.trace[j].CreateOffer?
            ==> i == j)
  {
    RunValid(Mount(roomId, isCaller), events);
  }

  // ---------------------------------------------------------------------
  // Set-up
  // ---------------------------------------------------------------------

  /** A rejected set-up shows the failure message, never "Connected", and
      registers no handler. */
  lemma InitRejectedOutcome(s: Session)
    requires Valid(s) && s.mounted && s.setup == Pending
    ensures var t := Step(s, InitRejected);
      && t.error == InitFailureMessage && !t.isConnected && t.handlers == {}
      && !t.hasPeer && t.trace == s.trace + [LogError]
  {
  }

  /** Once the call service hands out a peer, "Connected" shows. A callee
      registers all four handlers at once; a caller creates its offer for
      this room and waits for it with no handler registered. */
  lemma {:induction false} PeerReadyOutcome(s: Session)
    requires Valid(s) && s.mounted && s.setup == Pending
    ensures var t := Step(s, PeerReady);
      && t.isConnected && t.hasPeer && t.error == ""
      && (s.isCaller ==> t.setup == AwaitingOffer && t.handlers == {}
                         && t.trace == s.trace + [CreateOffer(s.roomId)])
      && (!s.isCaller ==> t.setup == Ready && t.handlers == AllChannels
                          && t.trace == s.trace + Registrations)
  {
  }

  /** A settled offer registers all four handlers; a failed one logs,
      shows the failure message next to "Connected", and registers none. */
  lemma {:induction false} OfferSettledOutcome(s: Session, ok: bool)
    requires Valid(s) && s.mounted && s.setup == AwaitingOffer
    ensures var t := Step(s, OfferSettled(ok));
      && t.isConnected && t.hasPeer
      && (ok ==> t.handlers == AllChannels && t.error == "" && t.trace == s.trace + Registrations)
      && (!ok ==> t.handlers == {} && t.error == InitFailureMessage && t.trace == s.trace + [LogError])
  {
  }

  /** If the cleanup runs while a caller waits for its offer, the cleanup
      closes the peer, yet the offer settling afterwards still registers all
      four handlers on that closed peer. */
  lemma {:induction false} HandlersRegisteredOnClosedPeer(roomId: string)
    ensures var t := Run(Mount(roomId, true), [PeerReady, Unmounted, OfferSettled(true)]);
      && !t.mounted && ClosePeer in t.trace && t.handlers == AllChannels
  {
    var s0 := Mount(roomId, true);
    var s1 := Step(s0, PeerReady);
    var s2 := Step(s1, Unmounted);
    var s3 := Step(s2, OfferSettled(true));
    assert s2.trace == s1.trace + CleanupCalls(true);
    assert ClosePeer in s2.trace by {
      assert s2.trace[|s1.trace|] == ClosePeer;
    }
    assert s2.trace <= s3.trace;
    assert [PeerReady, Unmounted, OfferSettled(true)][1..] == [Unmounted, OfferSettled(true)];
    assert [Unmounted, OfferSettled(true)][1..] == [OfferSettled(true)];
    assert Run(s0, [PeerReady, Unmounted, OfferSettled(true)]) == s3;
  }

  // ---------------------------------------------------------------------
  // Socket handlers
  // ---------------------------------------------------------------------

  /** An offer for another room, or one reaching the caller, changes nothing;
      otherwise, with the handler registered, it is passed to the call
      service for this room and nothing else but the remote description
      changes. */
  lemma OfferFiltering(s: Session, room: string, applied: bool)
    ensures room != s.roomId || s.isCaller ==> Step(s, OfferArrived(room, applied)) == s
    ensures CallOffer in s.handlers && room == s.roomId && !s.isCaller ==>
      var t := Step(s, OfferArrived(room, applied));
      && t.trace == s.trace + [HandleOffer(s.roomId)]
      && t == s.(trace := t.trace, remoteDescSet := t.remoteDescSet)
  {
  }

  /** An answer is applied only while no remote description is set, whatever
      room it names. */
  lemma AnswerGuard(s: Session, room: string, other: string, applied: bool)
    ensures s.remoteDescSet ==> Step(s, AnswerArrived(room, applied)) == s
    ensures Step(s, AnswerArrived(room, applied)) == Step(s, AnswerArrived(other, applied))
  {
  }

  /** With a remote description set, no event applies an answer. */
  lemma NoAnswerStep(s: Session, e: Event)
    requires s.remoteDescSet
    ensures SetRemoteDescription !in Calls(s, e)
  {
  }

  /** Once a remote description is set, no later event applies another
      answer, and the description stays set. */
  lemma {:induction false} AnswerAppliedAtMostOnce(s: Session, events: seq<Event>)
    requires s.remoteDescSet
    ensures Run(s, events).remoteDescSet
    ensures SetRemoteDescription !in Run(s, events).trace[|s.trace|..]
    decreases |events|
  {
    if |events| > 0 {
      var s1 := Step(s, events[0]);
      NoAnswerStep(s, events[0]);
      AnswerAppliedAtMostOnce(s1, events[1..]);
      var t := Run(s1, events[1..]);
      assert s1.trace[|s.trace|..] == Calls(s, events[0]);
      assert t.trace[|s.trace|..] == s1.trace[|s.trace|..] + t.trace[|s1.trace|..];
    }
  }

  /** A failing candidate is logged and otherwise treated like one that was
      accepted: only the trace grows, by one more log line. */
  lemma CandidateFailureSwallowed(s: Session, room: string)
    ensures var t := Step(s, CandidateArrived(room, false));
      && t == s.(trace := t.trace)
      && t.trace == Step(s, CandidateArrived(room, true)).trace
           + (if IceCandidate in s.handlers then [LogError] else [])
  {
  }

  // ---------------------------------------------------------------------
  // Ending the call
  // ---------------------------------------------------------------------

  /** The end-call button emits `call:end` for this room and then makes
      exactly the calls of a remote `call:end`: the host is told, then the
      call service ends the call. A remote `call:end` emits nothing. Neither
      changes anything but the trace. */
  lemma EndPathsShareTeardown(s: Session, room: string)
    ensures Step(s, EndClicked) == s.(trace := s.trace + [Emit(CallEnd, s.roomId)] + RemoteEndCalls)
    ensures CallEnd in s.handlers ==>
      Step(s, EndArrived(room)) == s.(trace := s.trace + RemoteEndCalls)
    ensures forall k :: 0 <= k < |RemoteEndCalls| ==> !RemoteEndCalls[k].Emit?
    ensures RemoteEndCalls[|RemoteEndCalls| - 1] == EndCall
  {
  }

  /** The cleanup closes the peer exactly when one exists, removes the offer,
      answer and candidate handlers but keeps `call:end`, ends with the call
      service's `endCall`, and runs only once. */
  lemma {:induction false} CleanupTeardown(s: Session)
    requires s.mounted
    ensures var t := Step(s, Unmounted);
      && !t.mounted
      && t.handlers == s.handlers - CleanedChannels
      && (CallEnd in s.handlers ==> CallEnd in t.handlers)
      && (ClosePeer in t.trace[|s.trace|..] <==> s.hasPeer)
      && t.trace[|t.trace| - 1] == EndCall
      && Step(t, Unmounted) == t
  {
    var t := Step(s, Unmounted);
    assert t.trace[|s.trace|..] == CleanupCalls(s.hasPeer);
  }

  /** No step removes the `call:end` handler once it is registered. */
  lemma {:induction false} CallEndHandlerPersists(s: Session, events: seq<Event>)
    requires CallEnd in s.handlers
    ensures CallEnd in Run(s, events).handlers
    decreases |events|
  {
    if |events| > 0 {
      CallEndHandlerPersists(Step(s, events[0]), events[1..]);
    }
  }

  /** Running two sequences of events one after the other is running their
      concatenation. */
  lemma {:induction false} RunAppend(s: Session, a: seq<Event>, b: seq<Event>)
    ensures Run(s, a + b) == Run(Run(s, a), b)
    decreases |a|
  {
    if |a| > 0 {
      assert (a + b)[0] == a[0];
      assert (a + b)[1..] == a[1..] + b;
      RunAppend(Step(s, a[0]), a[1..], b);
    } else {
      assert a + b == b;
    }
  }

  /** After the cleanup has run, the component itself never calls `close()`
      on the peer, "Connected" no longer changes, and no handler or peer goes
      away. */
  lemma {:induction false} UnmountedStaysOpen(s: Session, events: seq<Event>)
    requires !s.mounted
    ensures var t := Run(s, events);
      && !t.mounted && s.handlers <= t.handlers && t.isConnected == s.isConnected
      && (s.hasPeer ==> t.hasPeer)
      && ClosePeer !in t.trace[|s.trace|..]
    decreases |events|
  {
    if |events| > 0 {
      var s1 := Step(s, events[0]);
      UnmountedStaysOpen(s1, events[1..]);
      var t := Run(s1, events[1..]);
      assert s1.trace[|s.trace|..] == Calls(s, events[0]);
      assert t.trace[|s.trace|..] == s1.trace[|s.trace|..] + t.trace[|s1.trace|..];
    }
  }

  /** Every handler set is a subset of the four channels. */
  lemma HandlersBounded(h: set<Channel>)
    ensures h <= AllChannels
  {
    forall c | c in h
      ensures c in AllChannels
    {
      match c
      case CallOffer =>
      case CallAnswer =>
      case IceCandidate =>
      case CallEnd =>
    }
  }

  /** The set-up steps that finish successfully for a given side. */
  function SuccessfulSetup(isCaller: bool): seq<Event> {
    [PeerReady] + (if isCaller then [OfferSettled(true)] else [])
  }

  /** When the cleanup runs before the call service hands out a peer, the
      late set-up still registers all four handlers, and whatever happens
      afterwards, they stay registered, "Connected" never shows, and the
      component itself never calls `close()` on that peer. Only the opaque
      `CallService.endCall` might close it. */
  lemma {:induction false} LateSetupOutlivesCleanup(roomId: string, isCaller: bool, events: seq<Event>)
    ensures var t := Run(Mount(roomId, isCaller), [Unmounted] + SuccessfulSetup(isCaller) + events);
      && !t.mounted && t.hasPeer && !t.isConnected
      && t.handlers == AllChannels
      && ClosePeer !in t.trace
  {
    var s0 := Mount(roomId, isCaller);
    var s1 := Step(s0, Unmounted);
    var s2 := Step(s1, PeerReady);
    var s3 := if isCaller then Step(s2, OfferSettled(true)) else s2;
    assert s1.trace == s0.trace + CleanupCalls(false);
    assert Run(s0, [Unmounted] + SuccessfulSetup(isCaller)) == s3 by {
      RunAppend(s0, [Unmounted], SuccessfulSetup(isCaller));
      assert [Unmounted][1..] == [];
      if isCaller {
        assert SuccessfulSetup(isCaller)[1..] == [OfferSettled(true)];
        assert [OfferSettled(true)][1..] == [];
      } else {
        assert SuccessfulSetup(isCaller)[1..] == [];
      }
    }
    assert s3.handlers == AllChannels && s3.hasPeer && !s3.mounted && !s3.isConnected;
    assert ClosePeer !in s3.trace;
    RunAppend(s0, [Unmounted] + SuccessfulSetup(isCaller), events);
    UnmountedStaysOpen(s3, events);
    var t := Run(s3, events);
    HandlersBounded(t.handlers);
    assert t.trace == s3.trace + t.trace[|s3.trace|..];
  }
}

=== FILE: wrappers.dfy ===
/** The Some/None datatype used wherever the modelled code returns `null`
    or a call may fail without a payload. */
module Wrappers {

  datatype Option<+T> = None | Some(value: T) {

    /** Returns the value in Some, or `default` when None. */
    function GetOr(default: T): (r: T)
      ensures Some? ==> r == value
      ensures None? ==> r == default
    {
      match this
      case Some(v) => v
      case None => default
    }
  }
}
